=== FILE: README.md ===
# DHCPv6 relay plugin for pppd, with pppd's event handler

This project models the request path of pppd's DHCPv6 relay plugin, together with the part of pppd's select()-based event handler that the plugin registers its sockets with.

On the relay side, the model covers:

- **Server selection.** The relay picks a server address from the resolver result, preferring the first IPv6 address.
- **Link up and down.** When the PPP link comes up, the relay finds the interface's IPv6 link-local address, opens and binds a unicast and a multicast listening socket, and registers both. On link-down it unregisters and closes them.
- **The trust gate, applied to each client datagram.** Reply and Relay-reply messages are dropped. Relay-forward messages are also dropped unless the link is trusted.
- **Forwarding.** A datagram that passes the gate is forwarded to the server as a DHCPv6 Relay-forward message (section 9.1 of RFC 8415). The message is built in a 256-byte header buffer whose pushes are bounds-checked. That header is followed by the untouched client payload, which the final Relay Message option announces.

On the event-handler side, the model covers:

- the set of descriptors being waited on, and its high-water mark;
- the callback list: prepended on registration, first match unlinked on removal;
- the dispatch walk, which restarts at the head of the list after a callback removed a handler.

Operating-system calls are replaced by their results, passed in as parameters: socket, bind, connect, setsockopt, getaddrinfo, getifaddrs, getservbyname, getsockname and recvfrom. So are the PPP core's accessors for the interface name, the remote number and the peer's authenticated name.

Modules:

- `Wrappers`: Option.
- `Dhcpv6Wire`: the constants of `dhcpv6relay.h`, 16-bit big-endian fields, DHCPv6 options and the Relay-forward layout, each with a decoder proved inverse to its encoder.
- `RelayPolicy`: message-type names, the trust gate and the hop count.
- `RelayEnvelope`: the header bytes, the envelope message they encode, and the `HeadBuffer` class over a 256-byte array.
- `EventHandler`: the `Registry` class.
- `RelayAgent`: the plugin's global state as the `Relay` class, plus properties of a relayed datagram.

Three behaviours of the code are worth noting:

- **Subscriber-ID.** A Subscriber-ID option is sent whenever the PPP core returns a peer name, including an empty one.
- **Hop count.** The hop count of a relayed Relay-forward wraps modulo 256, and no hop limit is enforced.
- **Upstream socket.** Setting a new server does not close or reset an upstream socket that is already connected.

## Model

| member | source | states |
|---|---|---|
| Dhcpv6Wire.Be16 | pppd/plugins/dhcpv6relay/dhcpv6relay.c:253 | two bytes, high first, whose big-endian value is the argument truncated to 16 bits |
| Dhcpv6Wire.Be16FromBe16 | pppd/plugins/dhcpv6relay/dhcpv6relay.c:253 | writing back a 16-bit value read from two bytes gives those bytes |
| Dhcpv6Wire.DecodeOptions | pppd/plugins/dhcpv6relay/dhcpv6relay.c:270-292 | any option list the decoder accepts re-encodes to exactly its input, and every option's length fits its 16-bit field |
| Dhcpv6Wire.OptionSplit | pppd/plugins/dhcpv6relay/dhcpv6relay.c:270-292 | an option read off the front of a byte string, with options encoding the rest, re-encodes to the whole string |
| Dhcpv6Wire.OptionLayout | pppd/plugins/dhcpv6relay/dhcpv6relay.c:270-292 | in an encoded option, code and length are read back from the first four bytes, followed by the data and then whatever came after |
| Dhcpv6Wire.DecodeEncodeOptions | pppd/plugins/dhcpv6relay/dhcpv6relay.c:270-292 | options whose data fits a 16-bit length decode back to the same list |
| Dhcpv6Wire.Decode | pppd/plugins/dhcpv6relay/dhcpv6relay.c:238-292 | an accepted Relay-forward message has 16-byte addresses and encodable options, and re-encodes to the input |
| Dhcpv6Wire.EncodeLayout | pppd/plugins/dhcpv6relay/dhcpv6relay.c:238-243 | in an encoded Relay-forward message, msg-type, hop count, link-address, peer-address and the options sit at bytes 0, 1, 2-17, 18-33 and from 34 on |
| Dhcpv6Wire.DecodeEncode | pppd/plugins/dhcpv6relay/dhcpv6relay.c:238-292 | every well-formed Relay-forward message decodes back to itself |
| Dhcpv6Wire.RelayMessageEndsEncoding | pppd/plugins/dhcpv6relay/dhcpv6relay.c:290-292 | in a well-formed message whose last option is a Relay Message, the option's code and length are the four bytes just before its data, and that data ends the encoding, as the comment requiring it to come last relies on |
| RelayPolicy.TypeName | pppd/plugins/dhcpv6relay/dhcpv6relay.c:42-74 | types 1 to 13 have a name and every other type has none; "reply", "relay-forw" and "relay-repl" name exactly types 7, 12 and 13 |
| RelayPolicy.TypeNameInjective | pppd/plugins/dhcpv6relay/dhcpv6relay.c:42-74 | two types with the same name are the same type |
| RelayPolicy.Decide | pppd/plugins/dhcpv6relay/dhcpv6relay.c:221-233 | Reply and Relay-reply are discarded exactly; Relay-forward is discarded for distrust exactly when the link is untrusted |
| RelayPolicy.ForwardedExactly | pppd/plugins/dhcpv6relay/dhcpv6relay.c:221-233 | a message is forwarded if and only if it is not a reply and is not a Relay-forward on an untrusted link |
| RelayPolicy.RepliesNeverForwarded | pppd/plugins/dhcpv6relay/dhcpv6relay.c:221-226 | Reply and Relay-reply are dropped whatever the trust flag |
| RelayPolicy.HopCount | pppd/plugins/dhcpv6relay/dhcpv6relay.c:240 | 0 for a client message; for a Relay-forward, its hop count plus one, with 255 wrapping to 0 |
| RelayEnvelope.OptionBytes | pppd/plugins/dhcpv6relay/dhcpv6relay.c:270-292 | the option block is 10 bytes plus four bytes and the data of each identifier present |
| RelayEnvelope.HeaderLength | pppd/plugins/dhcpv6relay/dhcpv6relay.c:238-292 | the whole header is 44 bytes plus four bytes and the data of each identifier present |
| RelayEnvelope.RelayOptionsEncode | pppd/plugins/dhcpv6relay/dhcpv6relay.c:270-292 | the envelope's options encode to the option bytes of the header followed by the payload |
| RelayEnvelope.HeaderThenPayloadEncodesEnvelope | pppd/plugins/dhcpv6relay/dhcpv6relay.c:238-292 | header bytes followed by the payload are exactly the encoding of a well-formed Relay-forward message |
| RelayEnvelope.EnvelopeRoundTrip | pppd/plugins/dhcpv6relay/dhcpv6relay.c:238-301 | a header that fits the buffer, sent with the payload, decodes to the envelope, whose Relay Message option returns the payload unchanged |
| RelayEnvelope.HeadBuffer.WriteFixed | pppd/plugins/dhcpv6relay/dhcpv6relay.c:238-243 | the buffer holds msg-type 12, the hop count, 16 zero bytes and the peer address, and its length is 34 |
| RelayEnvelope.HeadBuffer.PushUint16 | pppd/plugins/dhcpv6relay/dhcpv6relay.c:252-253 | succeeds exactly when two bytes fit; on success appends the big-endian value, otherwise leaves the contents alone |
| RelayEnvelope.HeadBuffer.PushBytes | pppd/plugins/dhcpv6relay/dhcpv6relay.c:252-254 | succeeds exactly when all bytes fit; on success appends them, otherwise leaves the contents alone |
| RelayEnvelope.HeadBuffer.PushId | pppd/plugins/dhcpv6relay/dhcpv6relay.c:274-288 | an absent identifier writes nothing; a present one succeeds exactly when 4 bytes plus its data fit, and appends code, length and data |
| RelayEnvelope.HeadBuffer.PushRelayPort | pppd/plugins/dhcpv6relay/dhcpv6relay.c:270-272 | succeeds exactly when 6 bytes fit and appends the Relay Source Port option |
| RelayEnvelope.HeadBuffer.PushRelayMsgHeader | pppd/plugins/dhcpv6relay/dhcpv6relay.c:290-292 | succeeds exactly when 4 bytes fit and appends the Relay Message code and the payload length |
| RelayEnvelope.HeadBuffer.PushOptions | pppd/plugins/dhcpv6relay/dhcpv6relay.c:270-292 | all pushes succeed exactly when the whole option block fits, and the buffer then ends in exactly the option bytes |
| EventHandler.RemoveFirstShrinks | pppd/event-handler.c:110-124 | removal shortens the list by one exactly when the descriptor has a handler, leaves it unchanged otherwise, and adds no handler |
| EventHandler.RemoveFirstPrefix | pppd/event-handler.c:115-122 | after a prefix of handlers for other descriptors, the next handler for the descriptor is the one unlinked, and prefix and rest are kept |
| EventHandler.RemoveFirstAt | pppd/event-handler.c:115-122 | exactly the first handler for the descriptor is unlinked, and the others keep their order |
| EventHandler.RemoveFirstKeepsOthers | pppd/event-handler.c:115-122 | handlers for other descriptors survive a removal |
| EventHandler.RegisterPairThenRemove | pppd/event-handler.c:96-124 | registering two descriptors and removing both restores the list |
| EventHandler.Registry.constructor | pppd/event-handler.c:44-47 | all state starts empty and zero, with no descriptor added |
| EventHandler.Registry.Init | pppd/event-handler.c:126-130 | the descriptor set is emptied and the high-water mark is zeroed, so no descriptor counts as added any more; the callback list is kept |
| EventHandler.Registry.AddFd | pppd/event-handler.c:87-94 | a descriptor at or past FD_SETSIZE is fatal; otherwise it joins the set and the descriptors added since init, and the mark becomes the larger of the two, so it stays at least every descriptor added |
| EventHandler.Registry.AddFdCallback | pppd/event-handler.c:96-105 | the new handler is at the head, the old list follows unchanged, and the descriptor is added as AddFd does |
| EventHandler.Registry.RemoveFd | pppd/event-handler.c:110-124 | the descriptor leaves the set, the list becomes RemoveFirst of the old list, called_remove is raised exactly when a handler was unlinked, and the mark is kept |
| EventHandler.RemoveAllAppend | pppd/event-handler.c:110-124 | two runs of remove_fd calls, one after the other, act as the single run of their concatenation |
| EventHandler.RemoveAllShrinks | pppd/event-handler.c:110-124 | a run of remove_fd calls never adds a handler, and a run that leaves the list as long as before leaves it as it was |
| EventHandler.Registry.RunCallback | pppd/event-handler.c:73 | the list afterwards is the old list with the callback's remove_fd calls applied in order, and the set loses exactly the descriptors removed; called_remove is raised exactly when the list shrank |
| EventHandler.Registry.Dispatch | pppd/event-handler.c:72-78 | one served handler: after its callback the walk restarts at the head exactly when a handler was unlinked, and called_remove is cleared; the list and set are those of the removals so far followed by this callback's |
| EventHandler.Registry.WaitInput | pppd/event-handler.c:56-81 | each call serves the first handler, in the list as it stands after the earlier callbacks' remove_fd calls, whose descriptor is ready and not yet served; so each ready descriptor is served at most once, by a handler registered before the walk; every handler left whose descriptor was ready was served; the list after the walk is the old list with the served callbacks' remove_fd calls applied in call order, and the set loses exactly those descriptors |
| RelayAgent.FirstInet6 | pppd/plugins/dhcpv6relay/dhcpv6relay.c:109-116 | the index of the first IPv6 address, or none when there is no IPv6 address |
| RelayAgent.PreferredServer | pppd/plugins/dhcpv6relay/dhcpv6relay.c:109-116 | the first IPv6 address if there is one, otherwise the first address, and none only for an empty result |
| RelayAgent.PreferredStep | pppd/plugins/dhcpv6relay/dhcpv6relay.c:110-115 | one turn of the selection loop on a prefix takes the next address when nothing is chosen yet or when the next address is IPv6 |
| RelayAgent.PreferredSettled | pppd/plugins/dhcpv6relay/dhcpv6relay.c:109 | stopping at an IPv6 choice or at the end of the list gives the preferred server of the whole list |
| RelayAgent.PopulateLl | pppd/plugins/dhcpv6relay/dhcpv6relay.c:317-349 | an unreadable interface list gives nothing; otherwise the result is the first IPv6 address with a non-zero scope on the PPP interface, and nothing only when no such address exists |
| RelayAgent.BadReadNeverSent | pppd/plugins/dhcpv6relay/dhcpv6relay.c:201-213 | a read error or a datagram that fills the buffer is dropped and never sent |
| RelayAgent.SentOnlyWhenForwarded | pppd/plugins/dhcpv6relay/dhcpv6relay.c:221-236 | a sent datagram passed the trust gate and had an upstream socket; it was no reply, and a Relay-forward came from a trusted link |
| RelayAgent.OverflowExactly | pppd/plugins/dhcpv6relay/dhcpv6relay.c:252-292 | a forwarded datagram is dropped for overflow exactly when 44 bytes plus the identifier options exceed 256, and is sent otherwise |
| RelayAgent.SentDatagramRoundTrip | pppd/plugins/dhcpv6relay/dhcpv6relay.c:238-301 | every sent datagram decodes to the envelope with the computed hop count, a zero link-address and the sender as peer; its Relay Message is the received payload, which ends the datagram; the header is at most 256 bytes |
| RelayAgent.SolicitRelayed | pppd/plugins/dhcpv6relay/dhcpv6relay.c:221-301 | a Solicit is relayed with hop count 0 and the client as peer, trusted link or not |
| RelayAgent.RelayForwardByTrust | pppd/plugins/dhcpv6relay/dhcpv6relay.c:228-240 | a Relay-forward with hop count 3 is discarded on an untrusted link and relayed with hop count 4 on a trusted one |
| RelayAgent.UpThenDownRestoresHandlers | pppd/plugins/dhcpv6relay/dhcpv6relay.c:136-148 | unregistering both listening sockets after link-up leaves the callback list as it was before |
| RelayAgent.Relay.constructor | pppd/plugins/dhcpv6relay/dhcpv6relay.c:21-38 | no server, untrusted, and all three sockets closed |
| RelayAgent.Relay.SetServer | pppd/plugins/dhcpv6relay/dhcpv6relay.c:92-132 | the old server is forgotten; only a resolver failure rejects; the preferred address is kept; the name is kept only when an address was found |
| RelayAgent.Relay.Down | pppd/plugins/dhcpv6relay/dhcpv6relay.c:136-148 | each open listening socket is removed from the handler list and the descriptor set, and called_remove is raised exactly when a handler was unlinked; the mark is kept; both handles end closed; with both already closed the event handler is left untouched |
| RelayAgent.Relay.InitUpstream | pppd/plugins/dhcpv6relay/dhcpv6relay.c:151-169 | succeeds exactly when the socket opens and connects; otherwise the handle is -1 |
| RelayAgent.Relay.Up | pppd/plugins/dhcpv6relay/dhcpv6relay.c:352-419 | the outcome is the first failing step, in call order: no server, no link-local address, no service port, a socket call, a descriptor past FD_SETSIZE. Before the first socket is opened the handles and the event handler are untouched; a later socket failure closes both handles and leaves the event handler as Down does for the handles open at that point; on success both sockets are registered at the head of the list, added to the set, and the mark becomes the largest of the old mark and the two descriptors; a fatal descriptor leaves the state the registrations made before it |
| RelayAgent.Relay.ClientEvent | pppd/plugins/dhcpv6relay/dhcpv6relay.c:172-302 | the outcome is the datagram's ClientOutcome; the upstream socket is opened only for a forwarded datagram while it is closed |

## Left out

- Logging (`error`, `warn`, `notice`) and the text of log messages are not modelled. `TypeName` is kept because it is part of the core.
- The option table, `plugin_init` and the `doit == 0` probe of `dhcpv6relay_setserver` are left out. The probe returns before any state changes.
- `dhcpv6relay_server_event` is left out: it only aborts and relays nothing back.
- Closing descriptors, `fcntl(FD_CLOEXEC)`, the unchecked IPV6_UNICAST_HOPS `setsockopt`, and freeing memory are left out.
- Failures of the multicast group's `inet_pton` are left out, because that address is a constant and valid.
- The bytes of the socket addresses passed to bind are left out; only whether each call succeeds is modelled.
- A failure of `sendmsg` is left out: it is only logged, so the model's `Transmit` outcome is the datagram handed to it.
- `select()`, its timeout and its errors are left out. `WaitInput` takes the set of ready descriptors as a parameter.
- A callback is modelled only by the descriptors it passes to `remove_fd`. The relay's own callbacks never register new handlers from inside the walk.
- Descriptor values: `add_fd` with a negative descriptor is not modelled, since sockets handed to the handler are never negative. A descriptor at or past FD_SETSIZE, which is fatal in pppd, is modelled as a `false` result.
- The datagram source address is modelled only as its 16-byte IPv6 address. The port is read only for logging.
- RelayAgent.Relay.SetServer: the `break` inside the selection loop is not modelled separately. It leaves the loop exactly when the loop condition would.
- EventHandler.Registry.RemoveFd: a descriptor at or past FD_SETSIZE is modelled as simply leaving the set. In pppd, remove_fd clears it with FD_CLR without a bound check (pppd/event-handler.c:113), which writes outside the fd_set and is undefined behaviour.
- RelayAgent.Relay.Up: the clean rollback state assumes the descriptors returned by socket() lie below FD_SETSIZE. If one does not and a later step fails, link-down's remove_fd on it has the undefined behaviour described for RemoveFd (pppd/plugins/dhcpv6relay/dhcpv6relay.c:139 and :144).
- RelayAgent.Relay.Up: the link-local address found is not passed on to the modelled bind calls, whose success is a parameter.
- RelayAgent.Relay.Up: the leak of an earlier, still-open listening socket, when link-up runs twice without link-down, is not modelled.

=== FILE: dhcpv6_wire.dfy ===
/**
  The DHCPv6 wire format as far as the relay uses it: the message-type and
  option-code constants of dhcpv6relay.h, 16-bit fields in network byte order,
  options in the generic code/length/data format (section 21.1 of RFC 8415) and
  the Relay-forward message layout (section 9.1 of RFC 8415).
 */
module Dhcpv6Wire {
  import opened Wrappers

  newtype byte = x: int | 0 <= x < 256
  type uint16 = n: nat | n < 0x1_0000

  // Message types (section 7.3 of RFC 8415)
  const MSG_SOLICIT: byte := 1
  const MSG_ADVERTISE: byte := 2
  const MSG_REQUEST: byte := 3
  const MSG_CONFIRM: byte := 4
  const MSG_RENEW: byte := 5
  const MSG_REBIND: byte := 6
  const MSG_REPLY: byte := 7
  const MSG_RELEASE: byte := 8
  const MSG_DECLINE: byte := 9
  const MSG_RECONFIGURE: byte := 10
  const MSG_INFORMATION_REQUEST: byte := 11
  const MSG_RELAY_FORW: byte := 12
  const MSG_RELAY_REPL: byte := 13

  // Option codes used by the relay
  const OPTION_RELAY_MSG: uint16 := 9        // section 21.10 of RFC 8415
  const OPTION_REMOTE_ID: uint16 := 37       // RFC 4649
  const OPTION_SUBSCRIBER_ID: uint16 := 38   // RFC 4580
  const OPTION_RELAY_PORT: uint16 := 135     // RFC 8357

  /** msg-type, hop-count, link-address and peer-address of a Relay-forward message. */
  const RELAY_FIXED_LEN: nat := 34

  /** The value of a big-endian 16-bit field. */
  function FromBe16(hi: byte, lo: byte): (v: uint16)
  {
    hi as int * 256 + lo as int
  }

  /**
    A value written as a 16-bit field, high byte first, after the truncation
    to 16 bits that the conversion to uint16_t performs.
   */
  function Be16(v: nat): (r: seq<byte>)
    ensures |r| == 2
    ensures FromBe16(r[0], r[1]) == v % 0x1_0000
  {
    var t := v % 0x1_0000;
    [(t / 256) as byte, (t % 256) as byte]
  }

  /** Reading a 16-bit field and writing it back gives the same two bytes. */
  lemma Be16FromBe16(hi: byte, lo: byte)
    ensures Be16(FromBe16(hi, lo) as nat) == [hi, lo]
  {
    var v := hi as int * 256 + lo as int;
    assert v % 0x1_0000 == v;
    assert v / 256 == hi as int && v % 256 == lo as int;
  }

  datatype DhcpOption = DhcpOption(code: uint16, data: seq<byte>)

  /** An option whose data length fits its 16-bit length field. */
  predicate Encodable(o: DhcpOption)
  {
    |o.data| < 0x1_0000
  }

  function EncodeOption(o: DhcpOption): seq<byte>
  {
    Be16(o.code) + Be16(|o.data|) + o.data
  }

  function EncodeOptions(os: seq<DhcpOption>): seq<byte>
  {
    if os == [] then [] else EncodeOption(os[0]) + EncodeOptions(os[1..])
  }

  /**
    Splits a byte string into options. Whatever it accepts, it accepts
    exactly: encoding the options again gives back the input.
   */
  function DecodeOptions(s: seq<byte>): (r: Option<seq<DhcpOption>>)
    ensures r.Some? ==> EncodeOptions(r.value) == s
    ensures r.Some? ==> forall i :: 0 <= i < |r.value| ==> Encodable(r.value[i])
    decreases |s|
  {
    if s == [] then Some([])
    else if |s| < 4 then None
    else
      var len := FromBe16(s[2], s[3]);
      if |s| < 4 + len then None
      else match DecodeOptions(s[4 + len..])
        case None => None
        case Some(rest) =>
          var o := DhcpOption(FromBe16(s[0], s[1]), s[4..4 + len]);
          OptionSplit(s, rest);
          Some([o] + rest)
  }

  /** One option read off the front of `s`, followed by options that encode to the rest. */
  lemma OptionSplit(s: seq<byte>, rest: seq<DhcpOption>)
    requires |s| >= 4 && |s| >= 4 + FromBe16(s[2], s[3])
    requires EncodeOptions(rest) == s[4 + FromBe16(s[2], s[3])..]
    ensures var len := FromBe16(s[2], s[3]);
      EncodeOptions([DhcpOption(FromBe16(s[0], s[1]), s[4..4 + len])] + rest) == s
  {
    var len := FromBe16(s[2], s[3]);
    var o := DhcpOption(FromBe16(s[0], s[1]), s[4..4 + len]);
    assert EncodeOption(o) == s[..4 + len] by {
      Be16FromBe16(s[0], s[1]);
      Be16FromBe16(s[2], s[3]);
      assert s[..2] == [s[0], s[1]] && s[2..4] == [s[2], s[3]];
      assert s[..4] == s[..2] + s[2..4];
      assert s[..4 + len] == s[..4] + s[4..4 + len];
    }
    assert ([o] + rest)[0] == o && ([o] + rest)[1..] == rest;
    assert s == s[..4 + len] + s[4 + len..];
  }

  lemma {:induction false} EncodeOptionsAppend(a: seq<DhcpOption>, b: seq<DhcpOption>)
    ensures EncodeOptions(a + b) == EncodeOptions(a) + EncodeOptions(b)
    decreases |a|
  {
    if a == [] {
      assert a + b == b;
    } else {
      assert (a + b)[0] == a[0] && (a + b)[1..] == a[1..] + b;
      EncodeOptionsAppend(a[1..], b);
    }
  }

  /** Where code, length, data and what follows sit once an option is written in front of `tail`. */
  lemma OptionLayout(o: DhcpOption, tail: seq<byte>)
    requires Encodable(o)
    ensures var s := EncodeOption(o) + tail;
      |s| >= 4 + |o.data| &&
      FromBe16(s[0], s[1]) == o.code && FromBe16(s[2], s[3]) == |o.data| &&
      s[4..4 + |o.data|] == o.data && s[4 + |o.data|..] == tail
  {
    var s := EncodeOption(o) + tail;
    var c, l := Be16(o.code), Be16(|o.data|);
    assert s == c + l + o.data + tail;
    assert s[0] == c[0] && s[1] == c[1] && s[2] == l[0] && s[3] == l[1];
    assert s[4..4 + |o.data|] == o.data;
    assert s[4 + |o.data|..] == tail;
  }

  /** Options whose lengths fit their fields are read back exactly as written. */
  lemma {:induction false} DecodeEncodeOptions(os: seq<DhcpOption>)
    requires forall i :: 0 <= i < |os| ==> Encodable(os[i])
    ensures DecodeOptions(EncodeOptions(os)) == Some(os)
    decreases |os|
  {
    if os != [] {
      var o := os[0];
      var tail := EncodeOptions(os[1..]);
      OptionLayout(o, tail);
      DecodeEncodeOptions(os[1..]);
      assert EncodeOptions(os) == EncodeOption(o) + tail;
      assert [o] + os[1..] == os;
    }
  }

  /** A Relay-forward message; its msg-type is always RELAY-FORW. */
  datatype RelayForward = RelayForward(
    hopCount: byte,
    linkAddress: seq<byte>,
    peerAddress: seq<byte>,
    options: seq<DhcpOption>)

  predicate WellFormed(m: RelayForward)
  {
    |m.linkAddress| == 16 && |m.peerAddress| == 16 &&
    forall i :: 0 <= i < |m.options| ==> Encodable(m.options[i])
  }

  function Encode(m: RelayForward): seq<byte>
  {
    [MSG_RELAY_FORW, m.hopCount] + m.linkAddress + m.peerAddress + EncodeOptions(m.options)
  }

  /** Reads a Relay-forward message; a well-formed result re-encodes to the input. */
  function Decode(s: seq<byte>): (r: Option<RelayForward>)
    ensures r.Some? ==> WellFormed(r.value) && Encode(r.value) == s
  {
    if |s| < RELAY_FIXED_LEN || s[0] != MSG_RELAY_FORW then None
    else match DecodeOptions(s[RELAY_FIXED_LEN..])
      case None => None
      case Some(os) =>
        FixedSplit(s);
        Some(RelayForward(s[1], s[2..18], s[18..34], os))
  }

  /** A byte string is its first 34 bytes, cut at the field boundaries, followed by the rest. */
  lemma FixedSplit(s: seq<byte>)
    requires |s| >= RELAY_FIXED_LEN
    ensures s == [s[0], s[1]] + s[2..18] + s[18..34] + s[RELAY_FIXED_LEN..]
  {
    assert s[..2] == [s[0], s[1]];
    assert s[..18] == s[..2] + s[2..18];
    assert s[..RELAY_FIXED_LEN] == s[..18] + s[18..34];
    assert s == s[..RELAY_FIXED_LEN] + s[RELAY_FIXED_LEN..];
  }

  /** Where the fields of a Relay-forward message sit in its encoding. */
  lemma EncodeLayout(m: RelayForward)
    requires WellFormed(m)
    ensures var s := Encode(m);
      |s| >= RELAY_FIXED_LEN && s[0] == MSG_RELAY_FORW && s[1] == m.hopCount &&
      s[2..18] == m.linkAddress && s[18..34] == m.peerAddress &&
      s[RELAY_FIXED_LEN..] == EncodeOptions(m.options)
  {
    var head := [MSG_RELAY_FORW, m.hopCount] + m.linkAddress + m.peerAddress;
    var s := Encode(m);
    assert s == head + EncodeOptions(m.options);
    assert s[..RELAY_FIXED_LEN] == head;
    assert head[2..18] == m.linkAddress && head[18..34] == m.peerAddress;
  }

  /** Every well-formed Relay-forward message survives encoding and decoding. */
  lemma DecodeEncode(m: RelayForward)
    requires WellFormed(m)
    ensures Decode(Encode(m)) == Some(m)
  {
    EncodeLayout(m);
    DecodeEncodeOptions(m.options);
  }

  /** The payload of the final option when that option is a Relay Message option. */
  function RelayMessage(m: RelayForward): Option<seq<byte>>
  {
    if |m.options| > 0 && m.options[|m.options| - 1].code == OPTION_RELAY_MSG
    then Some(m.options[|m.options| - 1].data)
    else None
  }

  /**
    Why the Relay Message option has to come last: in the encoding of a
    well-formed message, the option's code and length are the four bytes
    just before its data, and that data ends the message. So the header can
    announce a payload that is sent after it, unchanged.
   */
  lemma RelayMessageEndsEncoding(m: RelayForward)
    requires WellFormed(m) && RelayMessage(m).Some?
    ensures var e, p := Encode(m), RelayMessage(m).value;
      |e| >= RELAY_FIXED_LEN + 4 + |p| &&
      e[|e| - |p| - 4..] == Be16(OPTION_RELAY_MSG) + Be16(|p|) + p
  {
    var n := |m.options|;
    var init, last := m.options[..n - 1], m.options[n - 1];
    assert m.options == init + [last];
    EncodeOptionsAppend(init, [last]);
    assert [last][1..] == [];
    assert EncodeOptions([last]) == EncodeOption(last);
    var pre := [MSG_RELAY_FORW, m.hopCount] + m.linkAddress + m.peerAddress + EncodeOptions(init);
    assert Encode(m) == pre + EncodeOption(last);
  }
}

=== FILE: event_handler.dfy ===
/**
  pppd's select() based event handler: the set of descriptors to wait on,
  its high-water mark, and the list of per-descriptor callbacks, which is
  prepended to on registration and unlinked in place on removal. The linked
  list is modelled by a sequence whose first element is the list head.
 */
module EventHandler {

  /** Size of an fd_set: descriptors from this value on cannot be waited on. */
  const FD_SETSIZE: int := 1024

  /**
    One registered callback. The callback function and its context pointer
    are opaque to the registry and are modelled by identifiers.
   */
  datatype Handler = Handler(fd: int, cb: nat, ctx: nat)

  /** The larger of two descriptor values. */
  function Max(a: int, b: int): int
  {
    if a > b then a else b
  }

  predicate HasFd(hs: seq<Handler>, fd: int)
  {
    exists i :: 0 <= i < |hs| && hs[i].fd == fd
  }

  /** The list with its first handler for `fd` unlinked. */
  function RemoveFirst(hs: seq<Handler>, fd: int): seq<Handler>
  {
    if hs == [] then []
    else if hs[0].fd == fd then hs[1..]
    else [hs[0]] + RemoveFirst(hs[1..], fd)
  }

  /**
    Removal shortens the list by one exactly when the descriptor has a
    handler, leaves it unchanged otherwise, and never adds a handler.
   */
  lemma {:induction false} RemoveFirstShrinks(hs: seq<Handler>, fd: int)
    ensures HasFd(hs, fd) ==> |RemoveFirst(hs, fd)| == |hs| - 1
    ensures !HasFd(hs, fd) ==> RemoveFirst(hs, fd) == hs
    ensures multiset(RemoveFirst(hs, fd)) <= multiset(hs)
  {
    if hs != [] {
      var t := hs[1..];
      assert hs == [hs[0]] + t;
      if hs[0].fd == fd {
        assert HasFd(hs, fd) by { assert hs[0].fd == fd; }
      } else {
        RemoveFirstShrinks(t, fd);
        if HasFd(hs, fd) {
          var k :| 0 <= k < |hs| && hs[k].fd == fd;
          assert t[k - 1].fd == fd;
        }
        if HasFd(t, fd) {
          var k :| 0 <= k < |t| && t[k].fd == fd;
          assert hs[k + 1].fd == fd;
        }
      }
    }
  }

  /** The handler unlinked is the first one for `fd`, after a prefix of handlers for other descriptors. */
  lemma {:induction false} RemoveFirstPrefix(p: seq<Handler>, h: Handler, rest: seq<Handler>)
    requires forall j :: 0 <= j < |p| ==> p[j].fd != h.fd
    ensures RemoveFirst(p + [h] + rest, h.fd) == p + rest
    decreases |p|
  {
    var l := p + [h] + rest;
    if p == [] {
      assert l == [h] + rest;
    } else {
      assert l[0] == p[0] && l[1..] == p[1..] + [h] + rest;
      RemoveFirstPrefix(p[1..], h, rest);
      assert [p[0]] + (p[1..] + rest) == p + rest;
    }
  }

  /**
    Removing unlinks exactly the first handler with that descriptor; the
    handlers before and after it keep their relative order.
   */
  lemma RemoveFirstAt(hs: seq<Handler>, fd: int, i: nat)
    requires i < |hs| && hs[i].fd == fd
    requires forall j :: 0 <= j < i ==> hs[j].fd != fd
    ensures RemoveFirst(hs, fd) == hs[..i] + hs[i + 1..]
  {
    assert hs == hs[..i] + [hs[i]] + hs[i + 1..];
    RemoveFirstPrefix(hs[..i], hs[i], hs[i + 1..]);
  }

  /** Handlers for other descriptors are all kept. */
  lemma {:induction false} RemoveFirstKeepsOthers(hs: seq<Handler>, fd: int, h: Handler)
    requires h in hs && h.fd != fd
    ensures h in RemoveFirst(hs, fd)
  {
    if hs[0] != h {
      assert h in hs[1..];
      if hs[0].fd != fd {
        RemoveFirstKeepsOthers(hs[1..], fd, h);
      }
    }
  }

  /**
    Two registrations at the head followed by the removal of both descriptors
    leave the rest of the list as it was.
   */
  lemma RegisterPairThenRemove(hs: seq<Handler>, first: Handler, second: Handler)
    requires first.fd != second.fd
    ensures RemoveFirst(RemoveFirst([second, first] + hs, first.fd), second.fd) == hs
  {
    var l := [second, first] + hs;
    assert l[1..] == [first] + hs;
    assert ([first] + hs)[1..] == hs;
    assert RemoveFirst(l, first.fd) == [second] + hs;
  }

  /** The list after remove_fd for each of `fds`, in order. */
  function RemoveAll(hs: seq<Handler>, fds: seq<int>): seq<Handler>
    decreases |fds|
  {
    if fds == [] then hs
    else RemoveFirst(RemoveAll(hs, fds[..|fds| - 1]), fds[|fds| - 1])
  }

  /** Removing the descriptors of `a` and then those of `b` is removing those of `a + b`. */
  lemma {:induction false} RemoveAllAppend(hs: seq<Handler>, a: seq<int>, b: seq<int>)
    ensures RemoveAll(RemoveAll(hs, a), b) == RemoveAll(hs, a + b)
    decreases |b|
  {
    if b != [] {
      var b' := b[..|b| - 1];
      assert (a + b)[..|a + b| - 1] == a + b';
      assert (a + b)[|a + b| - 1] == b[|b| - 1];
      RemoveAllAppend(hs, a, b');
    } else {
      assert a + b == a;
    }
  }

  /**
    A run of removals never adds a handler, and when it leaves the list as
    long as before, it leaves it as it was.
   */
  lemma {:induction false} RemoveAllShrinks(hs: seq<Handler>, fds: seq<int>)
    ensures multiset(RemoveAll(hs, fds)) <= multiset(hs)
    ensures forall x :: x in RemoveAll(hs, fds) ==> x in hs
    ensures |RemoveAll(hs, fds)| <= |hs|
    ensures |RemoveAll(hs, fds)| == |hs| ==> RemoveAll(hs, fds) == hs
    decreases |fds|
  {
    if fds != [] {
      var r := RemoveAll(hs, fds[..|fds| - 1]);
      RemoveAllShrinks(hs, fds[..|fds| - 1]);
      RemoveFirstShrinks(r, fds[|fds| - 1]);
      forall x | x in RemoveAll(hs, fds)
        ensures x in hs
      {
        assert x in multiset(RemoveAll(hs, fds));
      }
    }
  }

  /** The descriptors named in `fds`. */
  function FdSet(fds: seq<int>): set<int>
  {
    set fd | fd in fds
  }

  lemma FdSetAppend(a: seq<int>, b: seq<int>)
    ensures FdSet(a + b) == FdSet(a) + FdSet(b)
  {
    assert forall fd :: fd in a + b <==> fd in a || fd in b;
  }

  /** One more remove_fd, from the list and from the set of descriptors named. */
  lemma RemoveStep(hs: seq<Handler>, fds: seq<int>, k: int)
    requires 0 <= k < |fds|
    ensures RemoveAll(hs, fds[..k + 1]) == RemoveFirst(RemoveAll(hs, fds[..k]), fds[k])
    ensures FdSet(fds[..k + 1]) == FdSet(fds[..k]) + {fds[k]}
  {
    assert fds[..k + 1][..k] == fds[..k];
    assert fds[..k + 1] == fds[..k] + [fds[k]];
    FdSetAppend(fds[..k], [fds[k]]);
  }

  /** The descriptors passed to remove_fd by the callbacks of `calls`, in call order. */
  function RemovedBy(calls: seq<Handler>, removals: Handler -> seq<int>): seq<int>
    decreases |calls|
  {
    if calls == [] then []
    else RemovedBy(calls[..|calls| - 1], removals) + removals(calls[|calls| - 1])
  }

  lemma RemovedByStep(calls: seq<Handler>, h: Handler, removals: Handler -> seq<int>)
    ensures RemovedBy(calls + [h], removals) == RemovedBy(calls, removals) + removals(h)
  {
    assert (calls + [h])[..|calls|] == calls;
  }

  /** The fds of a sequence of callback invocations. */
  function CalledFds(calls: seq<Handler>): (fds: set<int>)
    ensures forall c :: c in calls ==> c.fd in fds
  {
    set c | c in calls :: c.fd
  }

  /**
    The bookkeeping of the dispatch walk: `calls` are the handlers served so
    far, taken from `hs`, each for a distinct descriptor that was ready and is
    no longer pending, and every ready descriptor no longer pending was served.
   */
  ghost predicate Served(calls: seq<Handler>, pending: set<int>, ready: set<int>, hs: seq<Handler>)
  {
    pending <= ready &&
    (forall fd :: fd in ready && fd !in pending ==> fd in CalledFds(calls)) &&
    (forall c :: c in calls ==> c.fd !in pending) &&
    (forall i, j :: 0 <= i < j < |calls| ==> calls[i].fd != calls[j].fd) &&
    (forall k :: 0 <= k < |calls| ==> calls[k].fd in ready && calls[k] in hs)
  }

  /** No handler before index `i` has its descriptor still pending. */
  ghost predicate Cleared(hs: seq<Handler>, i: int, pending: set<int>)
  {
    forall j :: 0 <= j < i && j < |hs| ==> hs[j].fd !in pending
  }

  /** The walk moves past handler `i` once its descriptor is no longer pending. */
  lemma ClearedStep(hs: seq<Handler>, i: int, pending: set<int>, pending': set<int>)
    requires Cleared(hs, i, pending) && 0 <= i < |hs|
    requires pending' <= pending && hs[i].fd !in pending'
    ensures Cleared(hs, i + 1, pending')
  {
  }

  /** `h` is the first handler of `hs` whose descriptor is still pending. */
  ghost predicate FirstPending(hs: seq<Handler>, pending: set<int>, h: Handler)
  {
    exists i :: 0 <= i < |hs| && hs[i] == h && h.fd in pending && Cleared(hs, i, pending)
  }

  /**
    The order of the walk: each handler served is the first handler still
    registered, once the earlier callbacks' removals are applied, whose
    descriptor was ready and has not been served yet.
   */
  ghost predicate ServedFirst(hs: seq<Handler>, ready: set<int>, removals: Handler -> seq<int>, calls: seq<Handler>)
  {
    forall k :: 0 <= k < |calls| ==>
      FirstPending(RemoveAll(hs, RemovedBy(calls[..k], removals)), ready - CalledFds(calls[..k]), calls[k])
  }

  /** Serving the first pending handler extends the order of the walk. */
  lemma ServedFirstStep(hs: seq<Handler>, ready: set<int>, removals: Handler -> seq<int>, calls: seq<Handler>, h: Handler)
    requires ServedFirst(hs, ready, removals, calls)
    requires FirstPending(RemoveAll(hs, RemovedBy(calls, removals)), ready - CalledFds(calls), h)
    ensures ServedFirst(hs, ready, removals, calls + [h])
  {
    var calls' := calls + [h];
    forall k | 0 <= k < |calls'|
      ensures FirstPending(RemoveAll(hs, RemovedBy(calls'[..k], removals)), ready - CalledFds(calls'[..k]), calls'[k])
    {
      if k < |calls| {
        assert calls'[..k] == calls[..k] && calls'[k] == calls[k];
      } else {
        assert calls'[..k] == calls && calls'[k] == h;
      }
    }
  }

  /** The descriptors still pending are the ready ones not yet served. */
  lemma PendingIsRest(calls: seq<Handler>, pending: set<int>, ready: set<int>, hs: seq<Handler>)
    requires Served(calls, pending, ready, hs)
    ensures pending == ready - CalledFds(calls)
  {
    forall fd | fd in CalledFds(calls)
      ensures fd in ready && fd !in pending
    {
      var c :| c in calls && c.fd == fd;
      var k :| 0 <= k < |calls| && calls[k] == c;
    }
    forall fd | fd in ready && fd !in CalledFds(calls)
      ensures fd in pending
    {
      assert fd in pending || fd in CalledFds(calls);
    }
  }

  /** Clearing a pending descriptor makes the walk's measure smaller. */
  lemma PendingShrinks(pending: set<int>, fd: int)
    requires fd in pending
    ensures |pending - {fd}| < |pending|
  {
    assert pending == (pending - {fd}) + {fd};
  }

  /** Serving one more pending handler keeps the bookkeeping of the walk. */
  lemma ServeOne(calls: seq<Handler>, pending: set<int>, ready: set<int>, hs: seq<Handler>, h: Handler)
    requires Served(calls, pending, ready, hs) && h.fd in pending && h in hs
    ensures Served(calls + [h], pending - {h.fd}, ready, hs)
  {
    var calls' := calls + [h];
    assert calls'[|calls|] == h;
    assert h.fd in CalledFds(calls');
    forall fd | fd in ready && fd !in pending - {h.fd}
      ensures fd in CalledFds(calls')
    {
      if fd != h.fd {
        var c :| c in calls && c.fd == fd;
        assert c in calls';
      }
    }
  }

  class Registry {
    /** handlers, head first */
    var handlers: seq<Handler>
    /** in_fds */
    var inFds: set<int>
    /** max_in_fd */
    var maxInFd: int
    /** called_remove */
    var calledRemove: bool
    /** every descriptor added since the last event_handler_init */
    ghost var added: set<int>

    ghost predicate Valid()
      reads this
    {
      0 <= maxInFd < FD_SETSIZE &&
      inFds <= added &&
      (forall fd :: fd in added ==> 0 <= fd <= maxInFd)
    }

    /** The zero-initialised static state of the handler. */
    constructor ()
      ensures Valid()
      ensures handlers == [] && inFds == {} && maxInFd == 0 && !calledRemove && added == {}
    {
      handlers := [];
      inFds := {};
      maxInFd := 0;
      calledRemove := false;
      added := {};
    }

    /** event_handler_init: clears the descriptor set; the callback list is left as it is. */
    method Init()
      modifies this
      ensures Valid()
      ensures inFds == {} && maxInFd == 0 && added == {}
      ensures handlers == old(handlers) && calledRemove == old(calledRemove)
    {
      inFds := {};
      maxInFd := 0;
      added := {};
    }

    /**
      add_fd: a descriptor at or beyond FD_SETSIZE is a fatal error (`ok` is
      false and pppd exits); otherwise it joins the set and raises the
      high-water mark to it when it is larger.
     */
    method AddFd(fd: int) returns (ok: bool)
      requires Valid() && fd >= 0
      modifies this
      ensures Valid()
      ensures ok == (fd < FD_SETSIZE)
      ensures ok ==> inFds == old(inFds) + {fd} && added == old(added) + {fd}
      ensures ok ==> maxInFd == Max(old(maxInFd), fd)
      ensures !ok ==> inFds == old(inFds) && maxInFd == old(maxInFd) && added == old(added)
      ensures handlers == old(handlers) && calledRemove == old(calledRemove)
    {
      if fd >= FD_SETSIZE {
        return false;
      }
      inFds := inFds + {fd};
      added := added + {fd};
      if fd > maxInFd {
        maxInFd := fd;
      }
      ok := true;
    }

    /**
      add_fd_callback: a new handler goes to the head of the list, the rest of
      the list is kept in order, and the descriptor is added to the set.
     */
    method AddFdCallback(fd: int, cb: nat, ctx: nat) returns (ok: bool)
      requires Valid() && fd >= 0
      modifies this
      ensures Valid()
      ensures handlers == [Handler(fd, cb, ctx)] + old(handlers)
      ensures ok == (fd < FD_SETSIZE)
      ensures ok ==> inFds == old(inFds) + {fd} && added == old(added) + {fd}
      ensures ok ==> maxInFd == Max(old(maxInFd), fd)
      ensures !ok ==> inFds == old(inFds) && maxInFd == old(maxInFd) && added == old(added)
      ensures calledRemove == old(calledRemove)
    {
      handlers := [Handler(fd, cb, ctx)] + handlers;
      ok := AddFd(fd);
    }

    /**
      remove_fd: the descriptor always leaves the set; only the first handler
      for it is unlinked, and called_remove is raised only when one was.
      The high-water mark is not lowered.
     */
    method RemoveFd(fd: int)
      requires Valid()
      modifies this
      ensures Valid()
      ensures inFds == old(inFds) - {fd}
      ensures handlers == RemoveFirst(old(handlers), fd)
      ensures calledRemove == (old(calledRemove) || HasFd(old(handlers), fd))
      ensures maxInFd == old(maxInFd) && added == old(added)
    {
      inFds := inFds - {fd};
      var i := 0;
      while i < |handlers|
        invariant 0 <= i <= |handlers|
        invariant forall j :: 0 <= j < i ==> handlers[j].fd != fd
        invariant handlers == old(handlers) && calledRemove == old(calledRemove)
      {
        if handlers[i].fd == fd {
          calledRemove := true;
          RemoveFirstAt(handlers, fd, i);
          handlers := handlers[..i] + handlers[i + 1..];
          return;
        }
        i := i + 1;
      }
      RemoveFirstShrinks(handlers, fd);
    }

    /**
      One callback run, modelled by the descriptors it passes to remove_fd,
      in order; whatever else a callback does is outside the registry.
     */
    method RunCallback(removals: seq<int>)
      requires Valid()
      modifies this
      ensures Valid()
      ensures !calledRemove ==> handlers == old(handlers)
      ensures calledRemove == (old(calledRemove) || |handlers| < |old(handlers)|)
      ensures multiset(handlers) <= multiset(old(handlers))
      ensures forall x :: x in handlers ==> x in old(handlers)
      ensures handlers == RemoveAll(old(handlers), removals)
      ensures inFds == old(inFds) - FdSet(removals)
      ensures maxInFd == old(maxInFd) && added == old(added)
    {
      var k := 0;
      while k < |removals|
        invariant 0 <= k <= |removals|
        invariant Valid()
        invariant calledRemove == (old(calledRemove) || |handlers| < |old(handlers)|)
        invariant |handlers| <= |old(handlers)|
        invariant handlers == RemoveAll(old(handlers), removals[..k])
        invariant inFds == old(inFds) - FdSet(removals[..k])
        invariant maxInFd == old(maxInFd) && added == old(added)
      {
        RemoveStep(old(handlers), removals, k);
        RemoveFirstShrinks(handlers, removals[k]);
        RemoveFd(removals[k]);
        k := k + 1;
      }
      assert removals[..k] == removals;
      RemoveAllShrinks(old(handlers), removals);
    }

    /**
      One served handler in the walk of wait_input: its callback runs, and
      when it unlinked a handler, called_remove is cleared and `restart` tells
      the walk to go back to the head of the list. Given that the list and the
      set are `hs0` and `fds0` after the removals `removed`, they are so after
      `removed + removals` too.
     */
    method Dispatch(ghost hs0: seq<Handler>, ghost fds0: set<int>, ghost removed: seq<int>, removals: seq<int>)
      returns (restart: bool, ghost removed': seq<int>)
      requires Valid() && !calledRemove
      requires handlers == RemoveAll(hs0, removed) && inFds == fds0 - FdSet(removed)
      modifies this
      ensures Valid() && !calledRemove
      ensures removed' == removed + removals
      ensures handlers == RemoveAll(hs0, removed') && inFds == fds0 - FdSet(removed')
      ensures restart == (|handlers| < |old(handlers)|)
      ensures !restart ==> handlers == old(handlers)
      ensures maxInFd == old(maxInFd) && added == old(added)
    {
      RunCallback(removals);
      RemoveAllAppend(hs0, removed, removals);
      FdSetAppend(removed, removals);
      restart := calledRemove;
      calledRemove := false;
      removed' := removed + removals;
    }

    /**
      The dispatch walk of wait_input, after select() has reported `ready`.
      Each handler whose descriptor is still marked ready has the mark cleared
      before its callback runs, and the walk restarts at the head whenever a
      callback unlinked a handler. `removals` gives, for each handler, what its
      callback removes. Every descriptor is served at most once, and every
      handler still registered afterwards whose descriptor was ready has had
      that descriptor served.
     */
    method WaitInput(ready: set<int>, removals: Handler -> seq<int>) returns (calls: seq<Handler>)
      requires Valid()
      modifies this
      ensures Valid()
      ensures forall i, j :: 0 <= i < j < |calls| ==> calls[i].fd != calls[j].fd
      ensures forall i :: 0 <= i < |calls| ==> calls[i].fd in ready && calls[i] in old(handlers)
      ensures forall k :: 0 <= k < |handlers| && handlers[k].fd in ready ==> handlers[k].fd in CalledFds(calls)
      ensures ServedFirst(old(handlers), ready, removals, calls)
      ensures handlers == RemoveAll(old(handlers), RemovedBy(calls, removals))
      ensures inFds == old(inFds) - FdSet(RemovedBy(calls, removals))
      ensures multiset(handlers) <= multiset(old(handlers))
      ensures maxInFd == old(maxInFd) && added == old(added)
      ensures !calledRemove
    {
      calledRemove := false;
      var pending := ready;
      var i := 0;
      calls := [];
      ghost var removed: seq<int> := [];
      while i < |handlers|
        invariant Valid()
        invariant 0 <= i <= |handlers|
        invariant Cleared(handlers, i, pending)
        invariant Served(calls, pending, ready, old(handlers))
        invariant ServedFirst(old(handlers), ready, removals, calls)
        invariant removed == RemovedBy(calls, removals)
        invariant handlers == RemoveAll(old(handlers), removed)
        invariant inFds == old(inFds) - FdSet(removed)
        invariant maxInFd == old(maxInFd) && added == old(added)
        invariant !calledRemove
        decreases |pending|, |handlers| - i
      {
        var h := handlers[i];
        if h.fd in pending {
          PendingIsRest(calls, pending, ready, old(handlers));
          assert FirstPending(handlers, pending, h) by {
            assert handlers[i] == h && h.fd in pending && Cleared(handlers, i, pending);
          }
          ServedFirstStep(old(handlers), ready, removals, calls, h);
          ClearedStep(handlers, i, pending, pending - {h.fd});
          PendingShrinks(pending, h.fd);
          RemoveAllShrinks(old(handlers), removed);
          ServeOne(calls, pending, ready, old(handlers), h);
          RemovedByStep(calls, h, removals);
          pending := pending - {h.fd};
          calls := calls + [h];
          ghost var hs := handlers;
          var restart;
          restart, removed := Dispatch(old(handlers), old(inFds), removed, removals(h));
          if restart {
            i := 0;
          } else {
            assert handlers == hs;
            i := i + 1;
          }
        } else {
          ClearedStep(handlers, i, pending, pending);
          i := i + 1;
        }
      }
      RemoveAllShrinks(old(handlers), removed);
    }
  }
}

=== FILE: relay_agent.dfy ===
/**
  The DHCPv6 relay plugin's state and event handlers: choosing the upstream
  server, bringing the two listening sockets up and down with the PPP link,
  opening the upstream socket lazily, and relaying one received client
  datagram. Every operating-system call is replaced by its result, passed in
  as a parameter.
 */
module RelayAgent {
  import opened Wrappers
  import opened Dhcpv6Wire
  import opened RelayPolicy
  import opened RelayEnvelope
  import EventHandler

  /** Size of the receive buffer; a datagram filling it is treated as an overrun. */
  const RECV_BUFFER_SIZE: int := 1024

  /** The callback identifier under which the client-event handler is registered. */
  const CLIENT_EVENT_CB: nat := 1

  /** What socket() returns: a descriptor, or -1 on failure. */
  type SocketResult = s: int | s >= -1

  datatype Family = Inet4 | Inet6 | OtherFamily

  /** A resolved socket address of the configured server. */
  datatype Endpoint = Endpoint(family: Family, port: uint16, address: seq<byte>)

  /** Index of the first IPv6 address in a resolver result. */
  function FirstInet6(ai: seq<Endpoint>): (k: Option<nat>)
    ensures k.Some? ==> (k.value < |ai| && ai[k.value].family == Inet6 &&
      forall j :: 0 <= j < k.value ==> ai[j].family != Inet6)
    ensures k.None? ==> forall j :: 0 <= j < |ai| ==> ai[j].family != Inet6
  {
    if ai == [] then None
    else if ai[0].family == Inet6 then Some(0)
    else match FirstInet6(ai[1..])
      case None => None
      case Some(k) => Some(k + 1)
  }

  /** The server address kept from a resolver result: the first IPv6 one, else the first one. */
  function PreferredServer(ai: seq<Endpoint>): (r: Option<Endpoint>)
    ensures r.None? <==> ai == []
    ensures (exists k :: 0 <= k < |ai| && ai[k].family == Inet6) ==>
      exists k :: 0 <= k < |ai| && r == Some(ai[k]) && ai[k].family == Inet6 &&
        forall j :: 0 <= j < k ==> ai[j].family != Inet6
    ensures ai != [] && (forall k :: 0 <= k < |ai| ==> ai[k].family != Inet6) ==> r == Some(ai[0])
  {
    match FirstInet6(ai)
    case Some(k) => Some(ai[k])
    case None => if ai == [] then None else Some(ai[0])
  }

  /** One turn of the server-selection loop extends the prefix it has looked at. */
  lemma PreferredStep(ai: seq<Endpoint>, i: nat)
    requires i < |ai|
    requires !(PreferredServer(ai[..i]).Some? && PreferredServer(ai[..i]).value.family == Inet6)
    ensures PreferredServer(ai[..i + 1]) ==
      if PreferredServer(ai[..i]).None? || ai[i].family == Inet6 then Some(ai[i])
      else PreferredServer(ai[..i])
  {
    var p, q := ai[..i], ai[..i + 1];
    assert forall j :: 0 <= j < i ==> p[j] == ai[j] && q[j] == ai[j];
    assert q[i] == ai[i];
    if ai[i].family == Inet6 {
      assert FirstInet6(q) == Some(i);
    } else {
      assert FirstInet6(q).None?;
    }
  }

  /** Once an IPv6 address is chosen, or the whole list is read, the choice is final. */
  lemma PreferredSettled(ai: seq<Endpoint>, i: nat)
    requires i <= |ai|
    requires i == |ai| || (PreferredServer(ai[..i]).Some? && PreferredServer(ai[..i]).value.family == Inet6)
    ensures PreferredServer(ai[..i]) == PreferredServer(ai)
  {
    var p := ai[..i];
    if i < |ai| {
      assert forall j :: 0 <= j < i ==> p[j] == ai[j];
      var k := FirstInet6(p).value;
      assert FirstInet6(ai) == Some(k);
    } else {
      assert p == ai;
    }
  }

  /** An address of a local interface as getifaddrs lists it (the address may be missing). */
  datatype IfSockAddr = IfSockAddr(family: Family, scopeId: nat, address: seq<byte>)
  datatype IfAddr = IfAddr(name: string, addr: Option<IfSockAddr>)

  /** An IPv6 link-local address (non-zero scope id) of the PPP interface. */
  predicate UsableLinkLocal(ifa: IfAddr, ifname: string)
  {
    ifa.addr.Some? && ifa.addr.value.family == Inet6 && ifa.addr.value.scopeId != 0 && ifa.name == ifname
  }

  /**
    dhcpv6relay_populate_ll: the address of the first usable entry of the
    interface list; nothing when the list could not be read or has none.
   */
  method PopulateLl(ifaddrs: Option<seq<IfAddr>>, ifname: string) returns (res: Option<IfSockAddr>)
    ensures ifaddrs.None? ==> res.None?
    ensures ifaddrs.Some? && res.None? ==>
      forall i :: 0 <= i < |ifaddrs.value| ==> !UsableLinkLocal(ifaddrs.value[i], ifname)
    ensures res.Some? ==> (ifaddrs.Some? &&
      exists i :: 0 <= i < |ifaddrs.value| && UsableLinkLocal(ifaddrs.value[i], ifname) &&
        res == ifaddrs.value[i].addr &&
        forall j :: 0 <= j < i ==> !UsableLinkLocal(ifaddrs.value[j], ifname))
  {
    if ifaddrs.None? {
      return None;
    }
    var ifas := ifaddrs.value;
    var i := 0;
    while i < |ifas|
      invariant 0 <= i <= |ifas|
      invariant forall j :: 0 <= j < i ==> !UsableLinkLocal(ifas[j], ifname)
    {
      var ifa := ifas[i];
      if ifa.addr.Some? && ifa.addr.value.family == Inet6 {
        if ifa.addr.value.scopeId != 0 {
          if ifa.name == ifname {
            return ifa.addr;
          }
        }
      }
      i := i + 1;
    }
    return None;
  }

  /** What recvfrom left behind: its return value, the whole receive buffer and the sender's address. */
  datatype Inbound = Inbound(r: int, buffer: seq<byte>, source: seq<byte>)

  predicate ValidInbound(ev: Inbound)
  {
    |ev.buffer| == RECV_BUFFER_SIZE && |ev.source| == 16
  }

  /** What getsockname reports for the upstream socket. */
  datatype LocalName = NameUnavailable | Bound(family: Family, port: uint16)

  /**
    Results of the calls made while relaying one datagram: socket() and
    connect() for a lazily opened upstream socket, getsockname() on it, and
    the link's remote number and authenticated peer name (NULL is None).
   */
  datatype EventEnv = EventEnv(
    upstreamSocket: SocketResult,
    connectOk: bool,
    local: LocalName,
    remoteNumber: Option<seq<byte>>,
    authName: Option<seq<byte>>)

  datatype EventOutcome =
    | ReadFailed
    | Overrun
    | Discarded(verdict: Verdict)
    | UpstreamUnavailable
    | LocalPortUnknown
    | NotIp
    | HeaderOverflow
    | Transmit(datagram: seq<byte>)

  /** The upstream descriptor after dhcpv6relay_init_upstream. */
  function UpstreamAfterInit(sock: SocketResult, connectOk: bool): SocketResult
  {
    if sock >= 0 && connectOk then sock else -1
  }

  /** The datagram passes the size guard and the trust gate. */
  predicate Forwards(ev: Inbound, trusted: bool)
    requires ValidInbound(ev)
  {
    0 <= ev.r < RECV_BUFFER_SIZE && Decide(ev.buffer[0], trusted) == Forward
  }

  /** What relaying one received datagram amounts to. */
  function ClientOutcome(ev: Inbound, trusted: bool, upstreamReady: bool, env: EventEnv): EventOutcome
    requires ValidInbound(ev)
  {
    if ev.r < 0 then ReadFailed
    else if ev.r >= RECV_BUFFER_SIZE then Overrun
    else if Decide(ev.buffer[0], trusted) != Forward then Discarded(Decide(ev.buffer[0], trusted))
    else if !upstreamReady then UpstreamUnavailable
    else match env.local
      case NameUnavailable => LocalPortUnknown
      case Bound(family, port) =>
        if family == OtherFamily then NotIp
        else
          var header := HeaderBytes(ev.buffer[0], ev.buffer[1], ev.source, port,
                                    env.remoteNumber, env.authName, ev.r);
          if |header| <= FWD_HEAD_SIZE then Transmit(header + ev.buffer[..ev.r]) else HeaderOverflow
  }

  /** A read error or a datagram that fills the buffer is never relayed. */
  lemma BadReadNeverSent(ev: Inbound, trusted: bool, upstreamReady: bool, env: EventEnv)
    requires ValidInbound(ev) && (ev.r < 0 || ev.r >= RECV_BUFFER_SIZE)
    ensures !ClientOutcome(ev, trusted, upstreamReady, env).Transmit?
    ensures ClientOutcome(ev, trusted, upstreamReady, env) == if ev.r < 0 then ReadFailed else Overrun
  {
  }

  /** Only datagrams the trust gate lets through are relayed. */
  lemma SentOnlyWhenForwarded(ev: Inbound, trusted: bool, upstreamReady: bool, env: EventEnv)
    requires ValidInbound(ev) && ClientOutcome(ev, trusted, upstreamReady, env).Transmit?
    ensures Forwards(ev, trusted) && upstreamReady
    ensures ev.buffer[0] != MSG_REPLY && ev.buffer[0] != MSG_RELAY_REPL
    ensures ev.buffer[0] == MSG_RELAY_FORW ==> trusted
  {
  }

  /**
    Overflow is all-or-nothing and exact: a forwarded datagram is dropped for
    overflow precisely when 44 bytes plus four bytes and the data of each
    identifier present exceed the 256-byte header buffer, and sent otherwise.
   */
  lemma OverflowExactly(ev: Inbound, trusted: bool, env: EventEnv)
    requires ValidInbound(ev) && Forwards(ev, trusted)
    requires env.local.Bound? && env.local.family != OtherFamily
    ensures ClientOutcome(ev, trusted, true, env) == HeaderOverflow <==>
      44 + IdLength(env.remoteNumber) + IdLength(env.authName) > FWD_HEAD_SIZE
    ensures ClientOutcome(ev, trusted, true, env).Transmit? <==>
      44 + IdLength(env.remoteNumber) + IdLength(env.authName) <= FWD_HEAD_SIZE
  {
    HeaderLength(ev.buffer[0], ev.buffer[1], ev.source, env.local.port,
                 env.remoteNumber, env.authName, ev.r);
  }

  /**
    A relayed datagram is a Relay-forward message with the header bytes in
    front of the untouched payload: hop count per the inbound type, an all-zero
    link-address, the sender as peer-address, and a final Relay Message option
    that gives back exactly the received bytes.
   */
  lemma SentDatagramRoundTrip(ev: Inbound, trusted: bool, upstreamReady: bool, env: EventEnv, d: seq<byte>)
    requires ValidInbound(ev) && ClientOutcome(ev, trusted, upstreamReady, env) == Transmit(d)
    ensures env.local.Bound? && 0 <= ev.r <= |d|
    ensures var payload := ev.buffer[..ev.r];
      var m := Envelope(ev.buffer[0], ev.buffer[1], ev.source, env.local.port,
                        env.remoteNumber, env.authName, payload);
      Decode(d) == Some(m) &&
      RelayMessage(m) == Some(payload) &&
      m.hopCount == HopCount(ev.buffer[0], ev.buffer[1]) &&
      m.linkAddress == Zeros(16) && m.peerAddress == ev.source &&
      d[|d| - ev.r..] == payload && |d| - ev.r <= FWD_HEAD_SIZE
  {
    var payload := ev.buffer[..ev.r];
    var header := HeaderBytes(ev.buffer[0], ev.buffer[1], ev.source, env.local.port,
                              env.remoteNumber, env.authName, ev.r);
    assert d == header + payload;
    EnvelopeRoundTrip(ev.buffer[0], ev.buffer[1], ev.source, env.local.port,
                      env.remoteNumber, env.authName, payload);
  }

  /**
    A Solicit from a client is wrapped with hop count 0 and the client's
    address as peer-address, on a trusted or an untrusted link alike.
   */
  lemma SolicitRelayed(ev: Inbound, trusted: bool, env: EventEnv)
    requires ValidInbound(ev) && 0 <= ev.r < RECV_BUFFER_SIZE && ev.buffer[0] == MSG_SOLICIT
    requires env.local == Bound(Inet6, 547) && env.remoteNumber.None? && env.authName.None?
    ensures ClientOutcome(ev, trusted, true, env).Transmit?
    ensures var d := ClientOutcome(ev, trusted, true, env).datagram;
      Decode(d).Some? && Decode(d).value.hopCount == 0 && Decode(d).value.peerAddress == ev.source &&
      RelayMessage(Decode(d).value) == Some(ev.buffer[..ev.r])
  {
    OverflowExactly(ev, trusted, env);
    var d := ClientOutcome(ev, trusted, true, env).datagram;
    SentDatagramRoundTrip(ev, trusted, true, env, d);
  }

  /**
    A Relay-forward with hop count 3 is dropped on an untrusted link and
    relayed with hop count 4 on a trusted one.
   */
  lemma RelayForwardByTrust(ev: Inbound, env: EventEnv)
    requires ValidInbound(ev) && 2 <= ev.r < RECV_BUFFER_SIZE
    requires ev.buffer[0] == MSG_RELAY_FORW && ev.buffer[1] == 3
    requires env.local.Bound? && env.local.family != OtherFamily
    requires env.remoteNumber.None? && env.authName.None?
    ensures ClientOutcome(ev, false, true, env) == Discarded(DiscardUntrustedRelay)
    ensures ClientOutcome(ev, true, true, env).Transmit?
    ensures ClientOutcome(ev, true, true, env).datagram[1] == 4
  {
    OverflowExactly(ev, true, env);
  }

  /** What the link-up handler finds: the results of the calls it makes. */
  datatype UpEnv = UpEnv(
    ifaddrs: Option<seq<IfAddr>>,
    ifname: string,
    serverPort: Option<uint16>,
    llSocket: SocketResult,
    llBindOk: bool,
    joinOk: bool,
    mcSocket: SocketResult,
    mcBindOk: bool)

  datatype UpOutcome = NotConfigured | NoLinkLocal | NoServerPort | RolledBack | Listening | FatalFd

  predicate HasLinkLocal(env: UpEnv)
  {
    env.ifaddrs.Some? &&
    exists i :: 0 <= i < |env.ifaddrs.value| && UsableLinkLocal(env.ifaddrs.value[i], env.ifname)
  }

  /** Both listening sockets were created and bound, and the link-local socket joined the multicast group. */
  predicate ListenersOpen(env: UpEnv)
  {
    env.llSocket >= 0 && env.llBindOk && env.joinOk && env.mcSocket >= 0 && env.mcBindOk
  }

  /** How link-up ends, checked in the order the handler makes its calls. */
  function UpResult(configured: bool, env: UpEnv): UpOutcome
  {
    if !configured then NotConfigured
    else if !HasLinkLocal(env) then NoLinkLocal
    else if env.serverPort.None? then NoServerPort
    else if !ListenersOpen(env) then RolledBack
    else if env.llSocket >= EventHandler.FD_SETSIZE || env.mcSocket >= EventHandler.FD_SETSIZE then FatalFd
    else Listening
  }

  /** The plugin's global state. */
  class Relay {
    /** dhcpv6relay_server: the configured server name, NULL when none is usable */
    var server: Option<string>
    /** dhcpv6relay_sa: the chosen server address (address family 0 is None) */
    var serverAddr: Option<Endpoint>
    /** dhcpv6relay_trusted */
    var trusted: bool
    /** dhcpv6relay_sock_ll: the link-local listening socket */
    var sockLl: SocketResult
    /** dhcpv6relay_sock_mc: the multicast listening socket */
    var sockMc: SocketResult
    /** dhcpv6relay_upstream: the socket connected to the server */
    var upstream: SocketResult
    /** pppd's event handler, where the listening sockets are registered */
    const events: EventHandler.Registry

    ghost predicate Valid()
      reads this, events
    {
      events.Valid()
    }

    constructor (events: EventHandler.Registry)
      requires events.Valid()
      ensures Valid() && this.events == events
      ensures server.None? && serverAddr.None? && !trusted
      ensures sockLl == -1 && sockMc == -1 && upstream == -1
    {
      this.events := events;
      server := None;
      serverAddr := None;
      trusted := false;
      sockLl := -1;
      sockMc := -1;
      upstream := -1;
    }

    /**
      dhcpv6relay_setserver: forgets the old server, then for a non-empty name
      keeps the preferred resolved address; the name is kept only when some
      address was found. `resolved` is None when the name could not be
      resolved, the one case that rejects the option. The upstream socket is
      left as it is.
     */
    method SetServer(arg: string, resolved: Option<seq<Endpoint>>) returns (accepted: bool)
      modifies this`server, this`serverAddr
      ensures accepted == (arg == [] || resolved.Some?)
      ensures arg == [] || resolved.None? ==> server.None? && serverAddr == old(serverAddr)
      ensures arg != [] && resolved.Some? ==>
        serverAddr == PreferredServer(resolved.value) &&
        server == if resolved.value == [] then None else Some(arg)
    {
      server := None;
      if arg == [] {
        return true;
      }
      if resolved.None? {
        return false;
      }
      var ai := resolved.value;
      serverAddr := None;
      var i := 0;
      while i < |ai| && !(serverAddr.Some? && serverAddr.value.family == Inet6)
        invariant 0 <= i <= |ai|
        invariant serverAddr == PreferredServer(ai[..i])
        invariant server.None?
      {
        PreferredStep(ai, i);
        if serverAddr.None? || ai[i].family == Inet6 {
          serverAddr := Some(ai[i]);
        }
        i := i + 1;
      }
      PreferredSettled(ai, i);
      if serverAddr.Some? {
        server := Some(arg);
      }
      return true;
    }

    /**
      dhcpv6relay_down: each open listening socket is unregistered and closed;
      both handles end at -1, and with both already closed nothing changes.
     */
    method Down()
      requires Valid()
      modifies this`sockLl, this`sockMc, events
      ensures Valid()
      ensures sockLl == -1 && sockMc == -1
      ensures old(sockLl) < 0 && old(sockMc) < 0 ==> unchanged(events)
      ensures events.handlers ==
        Unregister(Unregister(old(events.handlers), old(sockLl)), old(sockMc))
      ensures events.inFds == old(events.inFds) - {old(sockLl), old(sockMc)}
      ensures events.calledRemove ==
        (old(events.calledRemove) || |events.handlers| < |old(events.handlers)|)
      ensures events.maxInFd == old(events.maxInFd) && events.added == old(events.added)
    {
      ghost var hs, fds := events.handlers, events.inFds;
      ghost var ll, mc := sockLl, sockMc;
      if sockLl >= 0 {
        EventHandler.RemoveFirstShrinks(hs, ll);
        events.RemoveFd(sockLl);
        sockLl := -1;
      } else {
        assert ll !in fds;
      }
      assert events.handlers == Unregister(hs, ll) && events.inFds == fds - {ll};
      ghost var hs1 := events.handlers;
      if sockMc >= 0 {
        EventHandler.RemoveFirstShrinks(hs1, mc);
        events.RemoveFd(sockMc);
        sockMc := -1;
      } else {
        assert mc !in fds;
      }
      assert events.inFds == fds - {ll} - {mc};
    }

    /**
      dhcpv6relay_init_upstream: the new socket is kept when it connects; on
      a connect failure the handle is reset to -1 so the next message retries.
     */
    method InitUpstream(sock: SocketResult, connectOk: bool) returns (ok: bool)
      modifies this`upstream
      ensures ok == (sock >= 0 && connectOk)
      ensures upstream == UpstreamAfterInit(sock, connectOk)
    {
      upstream := sock;
      if upstream < 0 {
        return false;
      }
      if !connectOk {
        upstream := -1;
        return false;
      }
      return true;
    }

    /**
      dhcpv6relay_up: does nothing without a configured server; otherwise
      opens and binds both listening sockets and registers them, rolling
      back with Down on any failure after the first socket call.
     */
    method Up(env: UpEnv) returns (outcome: UpOutcome)
      requires Valid()
      modifies this`sockLl, this`sockMc, events
      ensures Valid()
      ensures outcome == UpResult(old(server).Some?, env)
      ensures outcome in {NotConfigured, NoLinkLocal, NoServerPort} ==>
        sockLl == old(sockLl) && sockMc == old(sockMc) && unchanged(events)
      ensures outcome == RolledBack ==> sockLl == -1 && sockMc == -1
      ensures outcome == RolledBack ==>
        var mc := if env.llSocket >= 0 && env.llBindOk && env.joinOk then env.mcSocket else old(sockMc);
        events.handlers == Unregister(Unregister(old(events.handlers), env.llSocket), mc) &&
        events.inFds == old(events.inFds) - {env.llSocket, mc} &&
        events.calledRemove == (old(events.calledRemove) || |events.handlers| < |old(events.handlers)|) &&
        events.maxInFd == old(events.maxInFd) && events.added == old(events.added)
      ensures outcome in {Listening, FatalFd} ==> sockLl == env.llSocket && sockMc == env.mcSocket
      ensures outcome in {Listening, FatalFd} ==> events.calledRemove == old(events.calledRemove)
      ensures outcome == Listening ==>
        events.handlers == [EventHandler.Handler(env.mcSocket, CLIENT_EVENT_CB, 0),
                            EventHandler.Handler(env.llSocket, CLIENT_EVENT_CB, 0)] + old(events.handlers) &&
        events.inFds == old(events.inFds) + {env.llSocket, env.mcSocket} &&
        events.added == old(events.added) + {env.llSocket, env.mcSocket} &&
        events.maxInFd == EventHandler.Max(EventHandler.Max(old(events.maxInFd), env.llSocket), env.mcSocket)
      ensures outcome == FatalFd && env.llSocket >= EventHandler.FD_SETSIZE ==>
        events.handlers == [EventHandler.Handler(env.llSocket, CLIENT_EVENT_CB, 0)] + old(events.handlers) &&
        events.inFds == old(events.inFds) && events.added == old(events.added) &&
        events.maxInFd == old(events.maxInFd)
      ensures outcome == FatalFd && env.llSocket < EventHandler.FD_SETSIZE ==>
        events.handlers == [EventHandler.Handler(env.mcSocket, CLIENT_EVENT_CB, 0),
                            EventHandler.Handler(env.llSocket, CLIENT_EVENT_CB, 0)] + old(events.handlers) &&
        events.inFds == old(events.inFds) + {env.llSocket} &&
        events.added == old(events.added) + {env.llSocket} &&
        events.maxInFd == EventHandler.Max(old(events.maxInFd), env.llSocket)
    {
      if server.None? {
        return NotConfigured;
      }
      var ll := PopulateLl(env.ifaddrs, env.ifname);
      if ll.None? {
        return NoLinkLocal;
      }
      if env.serverPort.None? {
        return NoServerPort;
      }
      sockLl := env.llSocket;
      if sockLl < 0 || !env.llBindOk {
        Down();
        return RolledBack;
      }
      // Setting the unicast hop limit is not checked, and the multicast group
      // address is a valid constant, so preparing it cannot fail.
      if !env.joinOk {
        Down();
        return RolledBack;
      }
      sockMc := env.mcSocket;
      if sockMc < 0 || !env.mcBindOk {
        Down();
        return RolledBack;
      }
      var ok := events.AddFdCallback(sockLl, CLIENT_EVENT_CB, 0);
      if !ok {
        return FatalFd;
      }
      ok := events.AddFdCallback(sockMc, CLIENT_EVENT_CB, 0);
      if !ok {
        return FatalFd;
      }
      return Listening;
    }

    /**
      dhcpv6relay_client_event: relays one received datagram. The upstream
      socket is opened only for a datagram that passes the size guard and the
      trust gate, and only while it is not open yet.
     */
    method ClientEvent(ev: Inbound, env: EventEnv) returns (outcome: EventOutcome)
      requires ValidInbound(ev)
      modifies this`upstream
      ensures outcome == ClientOutcome(ev, trusted,
        old(upstream) >= 0 || (env.upstreamSocket >= 0 && env.connectOk), env)
      ensures upstream ==
        if Forwards(ev, trusted) && old(upstream) < 0
        then UpstreamAfterInit(env.upstreamSocket, env.connectOk)
        else old(upstream)
    {
      if ev.r < 0 {
        return ReadFailed;
      }
      if ev.r >= RECV_BUFFER_SIZE {
        return Overrun;
      }
      var payload := ev.buffer[..ev.r];
      var verdict := Decide(ev.buffer[0], trusted);
      if verdict != Forward {
        return Discarded(verdict);
      }
      if upstream < 0 {
        var ok := InitUpstream(env.upstreamSocket, env.connectOk);
        if !ok {
          return UpstreamUnavailable;
        }
      }
      var head := new HeadBuffer();
      head.WriteFixed(ev.buffer[0], ev.buffer[1], ev.source);
      match env.local {
        case NameUnavailable =>
          return LocalPortUnknown;
        case Bound(family, port) =>
          if family == OtherFamily {
            return NotIp;
          }
          var ok := head.PushOptions(port, env.remoteNumber, env.authName, ev.r);
          HeaderLength(ev.buffer[0], ev.buffer[1], ev.source, port, env.remoteNumber, env.authName, ev.r);
          if !ok {
            return HeaderOverflow;
          }
          return Transmit(head.data[..head.len] + payload);
      }
    }
  }

  /** The handler list after remove_fd for a handle that is open; a closed handle (-1) is skipped. */
  function Unregister(hs: seq<EventHandler.Handler>, fd: int): seq<EventHandler.Handler>
  {
    if fd >= 0 then EventHandler.RemoveFirst(hs, fd) else hs
  }

  /**
    Link-up followed by link-down: when both listening sockets were registered,
    taking the link down leaves the handler list exactly as it was before.
   */
  lemma UpThenDownRestoresHandlers(hs: seq<EventHandler.Handler>, ll: int, mc: int)
    requires 0 <= ll && 0 <= mc && ll != mc
    ensures Unregister(Unregister(
      [EventHandler.Handler(mc, CLIENT_EVENT_CB, 0), EventHandler.Handler(ll, CLIENT_EVENT_CB, 0)] + hs,
      ll), mc) == hs
  {
    EventHandler.RegisterPairThenRemove(hs, EventHandler.Handler(ll, CLIENT_EVENT_CB, 0),
                                        EventHandler.Handler(mc, CLIENT_EVENT_CB, 0));
  }
}

=== FILE: relay_envelope.dfy ===
/**
  The Relay-forward envelope the relay puts in front of every forwarded client
  message: the bytes it writes into the fixed 256-byte header buffer, and the
  buffer itself with its bounds-checked 16-bit and byte-string pushes.
  The datagram that leaves the relay is these header bytes followed by the
  received payload, which the final Relay Message option announces.
 */
module RelayEnvelope {
  import opened Wrappers
  import opened Dhcpv6Wire
  import opened RelayPolicy

  /** Capacity of the header buffer. */
  const FWD_HEAD_SIZE: nat := 256

  function Zeros(n: nat): (r: seq<byte>)
    ensures |r| == n && forall i :: 0 <= i < n ==> r[i] == 0
  {
    seq(n, _ => 0)
  }

  /** msg-type, hop-count, an unspecified link-address and the client's address. */
  function FixedHeader(msgType: byte, innerHop: byte, peer: seq<byte>): seq<byte>
  {
    [MSG_RELAY_FORW, HopCount(msgType, innerHop)] + Zeros(16) + peer
  }

  /** Header bytes of an identifier option that is present; nothing when it is absent. */
  function IdBytes(code: uint16, id: Option<seq<byte>>): seq<byte>
  {
    if id.Some? then Be16(code) + Be16(|id.value|) + id.value else []
  }

  /** Space an identifier option takes in the header. */
  function IdLength(id: Option<seq<byte>>): nat
  {
    if id.Some? then 4 + |id.value| else 0
  }

  /** Relay Source Port option: code, length 2 and the port. */
  function PortBytes(port: uint16): seq<byte>
  {
    Be16(OPTION_RELAY_PORT) + Be16(2) + Be16(port)
  }

  /** Code and length of the Relay Message option; its data is sent behind the header. */
  function MsgHeadBytes(payloadLen: nat): seq<byte>
  {
    Be16(OPTION_RELAY_MSG) + Be16(payloadLen)
  }

  /**
    The option bytes written after the fixed header: Relay Source Port, then
    Remote-ID and Subscriber-ID when present, then the code and length of the
    Relay Message option whose data is the payload sent behind the header.
   */
  function OptionBytes(port: uint16, remoteId: Option<seq<byte>>, subscriberId: Option<seq<byte>>,
                       payloadLen: nat): (r: seq<byte>)
    ensures |r| == 10 + IdLength(remoteId) + IdLength(subscriberId)
  {
    PortBytes(port) +
    IdBytes(OPTION_REMOTE_ID, remoteId) +
    IdBytes(OPTION_SUBSCRIBER_ID, subscriberId) +
    MsgHeadBytes(payloadLen)
  }

  lemma Concat4(c: seq<byte>, a: seq<byte>, b: seq<byte>, d: seq<byte>, e: seq<byte>)
    ensures c + a + b + d + e == c + (a + b + d + e)
  {
  }

  /** Everything the relay writes into the header buffer for one message. */
  function HeaderBytes(msgType: byte, innerHop: byte, peer: seq<byte>, port: uint16,
                       remoteId: Option<seq<byte>>, subscriberId: Option<seq<byte>>,
                       payloadLen: nat): seq<byte>
  {
    FixedHeader(msgType, innerHop, peer) + OptionBytes(port, remoteId, subscriberId, payloadLen)
  }

  /** The header is 44 bytes plus four bytes and the data of each identifier present. */
  lemma HeaderLength(msgType: byte, innerHop: byte, peer: seq<byte>, port: uint16,
                     remoteId: Option<seq<byte>>, subscriberId: Option<seq<byte>>, payloadLen: nat)
    requires |peer| == 16
    ensures |HeaderBytes(msgType, innerHop, peer, port, remoteId, subscriberId, payloadLen)| ==
      44 + IdLength(remoteId) + IdLength(subscriberId)
  {
  }

  function IdOption(code: uint16, id: Option<seq<byte>>): seq<DhcpOption>
  {
    if id.Some? then [DhcpOption(code, id.value)] else []
  }

  /** The options of the envelope in the order they are sent; Relay Message is last. */
  function RelayOptions(port: uint16, remoteId: Option<seq<byte>>, subscriberId: Option<seq<byte>>,
                        payload: seq<byte>): seq<DhcpOption>
  {
    [DhcpOption(OPTION_RELAY_PORT, Be16(port))] +
    IdOption(OPTION_REMOTE_ID, remoteId) +
    IdOption(OPTION_SUBSCRIBER_ID, subscriberId) +
    [DhcpOption(OPTION_RELAY_MSG, payload)]
  }

  /** The Relay-forward message that wraps one received payload. */
  function Envelope(msgType: byte, innerHop: byte, peer: seq<byte>, port: uint16,
                    remoteId: Option<seq<byte>>, subscriberId: Option<seq<byte>>,
                    payload: seq<byte>): RelayForward
  {
    RelayForward(HopCount(msgType, innerHop), Zeros(16), peer,
                 RelayOptions(port, remoteId, subscriberId, payload))
  }

  lemma {:induction false} IdOptionEncodes(code: uint16, id: Option<seq<byte>>)
    requires id.Some? ==> |id.value| < 0x1_0000
    ensures EncodeOptions(IdOption(code, id)) == IdBytes(code, id)
    ensures forall i :: 0 <= i < |IdOption(code, id)| ==> Encodable(IdOption(code, id)[i])
  {
    if id.Some? {
      assert EncodeOptions([DhcpOption(code, id.value)]) ==
        EncodeOption(DhcpOption(code, id.value)) + EncodeOptions([]);
    }
  }

  /** The Relay Source Port option encodes to its header bytes. */
  lemma PortOptionEncodes(port: uint16)
    ensures EncodeOptions([DhcpOption(OPTION_RELAY_PORT, Be16(port))]) == PortBytes(port)
  {
    var o := DhcpOption(OPTION_RELAY_PORT, Be16(port));
    assert [o][1..] == [];
    assert EncodeOptions([o]) == EncodeOption(o) + EncodeOptions([]);
  }

  /** The Relay Message option encodes to its code and length followed by the payload. */
  lemma MsgOptionEncodes(payload: seq<byte>)
    ensures EncodeOptions([DhcpOption(OPTION_RELAY_MSG, payload)]) == MsgHeadBytes(|payload|) + payload
  {
    var o := DhcpOption(OPTION_RELAY_MSG, payload);
    assert [o][1..] == [];
    assert EncodeOptions([o]) == EncodeOption(o) + EncodeOptions([]);
  }

  /** The options of the envelope encode to the option bytes of the header followed by the payload. */
  lemma RelayOptionsEncode(port: uint16, remoteId: Option<seq<byte>>,
                           subscriberId: Option<seq<byte>>, payload: seq<byte>)
    requires remoteId.Some? ==> |remoteId.value| < 0x1_0000
    requires subscriberId.Some? ==> |subscriberId.value| < 0x1_0000
    ensures EncodeOptions(RelayOptions(port, remoteId, subscriberId, payload)) ==
      OptionBytes(port, remoteId, subscriberId, |payload|) + payload
  {
    var a := PortBytes(port);
    var b := IdBytes(OPTION_REMOTE_ID, remoteId);
    var c := IdBytes(OPTION_SUBSCRIBER_ID, subscriberId);
    var d := MsgHeadBytes(|payload|);
    PortOptionEncodes(port);
    MsgOptionEncodes(payload);
    IdOptionEncodes(OPTION_REMOTE_ID, remoteId);
    IdOptionEncodes(OPTION_SUBSCRIBER_ID, subscriberId);
    EncodeFourLists([DhcpOption(OPTION_RELAY_PORT, Be16(port))],
                    IdOption(OPTION_REMOTE_ID, remoteId),
                    IdOption(OPTION_SUBSCRIBER_ID, subscriberId),
                    [DhcpOption(OPTION_RELAY_MSG, payload)],
                    a, b, c, d + payload);
    var abc := a + b + c;
    assert abc + (d + payload) == abc + d + payload;
  }

  lemma EncodeFourLists(p: seq<DhcpOption>, q: seq<DhcpOption>, r: seq<DhcpOption>, t: seq<DhcpOption>,
                        ep: seq<byte>, eq: seq<byte>, er: seq<byte>, et: seq<byte>)
    requires EncodeOptions(p) == ep && EncodeOptions(q) == eq
    requires EncodeOptions(r) == er && EncodeOptions(t) == et
    ensures EncodeOptions(p + q + r + t) == ep + eq + er + et
  {
    EncodeOptionsAppend(p, q);
    EncodeOptionsAppend(p + q, r);
    EncodeOptionsAppend(p + q + r, t);
  }

  lemma RelayOptionsEncodable(port: uint16, remoteId: Option<seq<byte>>,
                              subscriberId: Option<seq<byte>>, payload: seq<byte>)
    requires |payload| < 0x1_0000
    requires remoteId.Some? ==> |remoteId.value| < 0x1_0000
    requires subscriberId.Some? ==> |subscriberId.value| < 0x1_0000
    ensures var os := RelayOptions(port, remoteId, subscriberId, payload);
      forall i :: 0 <= i < |os| ==> Encodable(os[i])
  {
  }

  /**
    The header bytes followed by the payload are exactly the encoding of the
    envelope: the buffer and the payload together form one Relay-forward message.
   */
  lemma HeaderThenPayloadEncodesEnvelope(
    msgType: byte, innerHop: byte, peer: seq<byte>, port: uint16,
    remoteId: Option<seq<byte>>, subscriberId: Option<seq<byte>>, payload: seq<byte>)
    requires |peer| == 16 && |payload| < 0x1_0000
    requires remoteId.Some? ==> |remoteId.value| < 0x1_0000
    requires subscriberId.Some? ==> |subscriberId.value| < 0x1_0000
    ensures WellFormed(Envelope(msgType, innerHop, peer, port, remoteId, subscriberId, payload))
    ensures HeaderBytes(msgType, innerHop, peer, port, remoteId, subscriberId, |payload|) + payload ==
      Encode(Envelope(msgType, innerHop, peer, port, remoteId, subscriberId, payload))
  {
    var m := Envelope(msgType, innerHop, peer, port, remoteId, subscriberId, payload);
    var f := FixedHeader(msgType, innerHop, peer);
    var o := OptionBytes(port, remoteId, subscriberId, |payload|);
    RelayOptionsEncode(port, remoteId, subscriberId, payload);
    RelayOptionsEncodable(port, remoteId, subscriberId, payload);
    assert EncodeOptions(m.options) == o + payload;
    assert Encode(m) == f + EncodeOptions(m.options);
    assert f + o + payload == f + (o + payload);
  }

  /**
    Round trip: a transmitted datagram decodes to the envelope, and the final
    Relay Message option gives back the received payload unchanged.
   */
  lemma EnvelopeRoundTrip(
    msgType: byte, innerHop: byte, peer: seq<byte>, port: uint16,
    remoteId: Option<seq<byte>>, subscriberId: Option<seq<byte>>, payload: seq<byte>)
    requires |peer| == 16 && |payload| < 0x1_0000
    requires |HeaderBytes(msgType, innerHop, peer, port, remoteId, subscriberId, |payload|)| <= FWD_HEAD_SIZE
    ensures var d := HeaderBytes(msgType, innerHop, peer, port, remoteId, subscriberId, |payload|) + payload;
      Decode(d) == Some(Envelope(msgType, innerHop, peer, port, remoteId, subscriberId, payload)) &&
      RelayMessage(Decode(d).value) == Some(payload)
  {
    HeaderLength(msgType, innerHop, peer, port, remoteId, subscriberId, |payload|);
    HeaderThenPayloadEncodesEnvelope(msgType, innerHop, peer, port, remoteId, subscriberId, payload);
    DecodeEncode(Envelope(msgType, innerHop, peer, port, remoteId, subscriberId, payload));
  }

  /**
    The header buffer `fwd_head` together with its running length (the length
    of the first scatter-gather element).
   */
  class HeadBuffer {
    var data: array<byte>
    var len: nat

    ghost predicate Valid()
      reads this
    {
      data.Length == FWD_HEAD_SIZE && len <= FWD_HEAD_SIZE
    }

    /** The bytes written so far. */
    ghost function Contents(): seq<byte>
      reads this, data
      requires Valid()
    {
      data[..len]
    }

    constructor ()
      ensures Valid() && fresh(data) && Contents() == []
    {
      data := new byte[FWD_HEAD_SIZE];
      len := 0;
    }

    /** Writes the 34-byte fixed part of the header and sets the length to 34. */
    method WriteFixed(msgType: byte, innerHop: byte, peer: seq<byte>)
      requires Valid() && |peer| == 16
      modifies this`len, data
      ensures Valid() && len == RELAY_FIXED_LEN
      ensures Contents() == FixedHeader(msgType, innerHop, peer)
    {
      data[0] := MSG_RELAY_FORW;
      data[1] := HopCount(msgType, innerHop);
      forall i | 2 <= i < 18 {
        data[i] := 0;
      }
      forall i | 18 <= i < 34 {
        data[i] := peer[i - 18];
      }
      len := RELAY_FIXED_LEN;
      assert Contents() == [MSG_RELAY_FORW, HopCount(msgType, innerHop)] + Zeros(16) + peer;
    }

    /** push_uint16: appends a 16-bit value high byte first when two bytes still fit. */
    method PushUint16(v: nat) returns (ok: bool)
      requires Valid()
      modifies this`len, data
      ensures Valid()
      ensures ok == (old(len) + 2 <= FWD_HEAD_SIZE)
      ensures Contents() == if ok then old(Contents()) + Be16(v) else old(Contents())
    {
      if 2 + len > FWD_HEAD_SIZE {
        return false;
      }
      var t := v % 0x1_0000;
      data[len] := (t / 256) as byte;
      len := len + 1;
      data[len] := (t % 256) as byte;
      len := len + 1;
      ok := true;
    }

    /** push_bytes: appends a byte string when all of it still fits. */
    method PushBytes(bs: seq<byte>) returns (ok: bool)
      requires Valid()
      modifies this`len, data
      ensures Valid()
      ensures ok == (old(len) + |bs| <= FWD_HEAD_SIZE)
      ensures Contents() == if ok then old(Contents()) + bs else old(Contents())
    {
      if |bs| + len > FWD_HEAD_SIZE {
        return false;
      }
      forall i | len <= i < len + |bs| {
        data[i] := bs[i - len];
      }
      len := len + |bs|;
      ok := true;
    }

    /** Remote-ID or Subscriber-ID: code, length and data, when the identifier exists. */
    method PushId(code: uint16, id: Option<seq<byte>>) returns (ok: bool)
      requires Valid()
      modifies this`len, data
      ensures Valid()
      ensures ok == (old(len) + IdLength(id) <= FWD_HEAD_SIZE)
      ensures ok ==> Contents() == old(Contents()) + IdBytes(code, id)
    {
      ok := true;
      if id.Some? {
        ok := PushUint16(code);
        if !ok { return; }
        ok := PushUint16(|id.value|);
        if !ok { return; }
        ok := PushBytes(id.value);
      }
    }

    /** Relay Source Port option: code, length 2, and the local port. */
    method PushRelayPort(port: uint16) returns (ok: bool)
      requires Valid()
      modifies this`len, data
      ensures Valid()
      ensures ok == (old(len) + 6 <= FWD_HEAD_SIZE)
      ensures ok ==> Contents() == old(Contents()) + PortBytes(port)
    {
      ok := PushUint16(OPTION_RELAY_PORT);
      if !ok { return; }
      ok := PushUint16(2);
      if !ok { return; }
      ok := PushUint16(port);
    }

    /** Code and length of the Relay Message option; its data is the payload sent behind the header. */
    method PushRelayMsgHeader(payloadLen: nat) returns (ok: bool)
      requires Valid()
      modifies this`len, data
      ensures Valid()
      ensures ok == (old(len) + 4 <= FWD_HEAD_SIZE)
      ensures ok ==> Contents() == old(Contents()) + MsgHeadBytes(payloadLen)
    {
      ok := PushUint16(OPTION_RELAY_MSG);
      if !ok { return; }
      ok := PushUint16(payloadLen);
    }

    /**
      The option pushes, in order. They all succeed exactly when the whole
      option block fits; a push that does not fit stops the build.
     */
    method PushOptions(port: uint16, remoteId: Option<seq<byte>>, subscriberId: Option<seq<byte>>,
                       payloadLen: nat) returns (ok: bool)
      requires Valid()
      modifies this`len, data
      ensures Valid()
      ensures ok == (old(len) + 10 + IdLength(remoteId) + IdLength(subscriberId) <= FWD_HEAD_SIZE)
      ensures ok ==> Contents() == old(Contents()) + OptionBytes(port, remoteId, subscriberId, payloadLen)
    {
      ghost var c0 := Contents();
      ok := PushRelayPort(port);
      if !ok { return; }
      ok := PushId(OPTION_REMOTE_ID, remoteId);
      if !ok { return; }
      ok := PushId(OPTION_SUBSCRIBER_ID, subscriberId);
      if !ok { return; }
      ok := PushRelayMsgHeader(payloadLen);
      if !ok { return; }
      Concat4(c0, PortBytes(port), IdBytes(OPTION_REMOTE_ID, remoteId),
              IdBytes(OPTION_SUBSCRIBER_ID, subscriberId), MsgHeadBytes(payloadLen));
    }
  }
}

=== FILE: relay_policy.dfy ===
/**
  The pure decisions of the relay plugin: the printable name of a message
  type, the trust gate applied to every datagram received on the PPP link,
  and the hop count written into the Relay-forward header.
 */
module RelayPolicy {
  import opened Wrappers
  import opened Dhcpv6Wire

  /** The name logged for a message type; unknown types have no name (NULL). */
  function TypeName(msgType: int): (name: Option<string>)
    ensures name.Some? <==> MSG_SOLICIT as int <= msgType <= MSG_RELAY_REPL as int
    ensures name == Some("relay-forw") <==> msgType == MSG_RELAY_FORW as int
    ensures name == Some("reply") <==> msgType == MSG_REPLY as int
    ensures name == Some("relay-repl") <==> msgType == MSG_RELAY_REPL as int
  {
    match msgType
    case 1 => Some("solicit")
    case 2 => Some("advertise")
    case 3 => Some("request")
    case 4 => Some("confirm")
    case 5 => Some("renew")
    case 6 => Some("rebind")
    case 7 => Some("reply")
    case 8 => Some("release")
    case 9 => Some("decline")
    case 10 => Some("reconfigure")
    case 11 => Some("information_request")
    case 12 => Some("relay-forw")
    case 13 => Some("relay-repl")
    case _ => None
  }

  /** Distinct message types are logged under distinct names. */
  lemma TypeNameInjective(a: int, b: int)
    requires TypeName(a).Some? && TypeName(a) == TypeName(b)
    ensures a == b
  {
  }

  /** What happens to a datagram received from the PPP link. */
  datatype Verdict = Forward | DiscardReply | DiscardUntrustedRelay

  /**
    The trust gate: server-to-client messages are never accepted from the link,
    and an already relayed message only from a trusted link.
   */
  function Decide(msgType: byte, trusted: bool): (v: Verdict)
    ensures v == DiscardReply <==> msgType == MSG_REPLY || msgType == MSG_RELAY_REPL
    ensures v == DiscardUntrustedRelay <==> msgType == MSG_RELAY_FORW && !trusted
  {
    if msgType == MSG_REPLY || msgType == MSG_RELAY_REPL then DiscardReply
    else if !trusted && msgType == MSG_RELAY_FORW then DiscardUntrustedRelay
    else Forward
  }

  /** A message goes on towards the server exactly when it is neither a reply nor an untrusted relay chain. */
  lemma ForwardedExactly(msgType: byte, trusted: bool)
    ensures Decide(msgType, trusted) == Forward <==>
      msgType != MSG_REPLY && msgType != MSG_RELAY_REPL && (trusted || msgType != MSG_RELAY_FORW)
  {
  }

  /** Reply and Relay-reply are dropped whatever the trust flag says. */
  lemma RepliesNeverForwarded(trusted: bool)
    ensures Decide(MSG_REPLY, trusted) == DiscardReply
    ensures Decide(MSG_RELAY_REPL, trusted) == DiscardReply
  {
  }

  /**
    The hop count of the new Relay-forward header: 0 for a client message, and
    for a message that is itself a Relay-forward its hop count plus one, stored
    in an unsigned char and so taken modulo 256.
   */
  function HopCount(msgType: byte, innerHop: byte): (h: byte)
    ensures msgType != MSG_RELAY_FORW ==> h == 0
    ensures msgType == MSG_RELAY_FORW && innerHop < 255 ==> h == innerHop + 1
    ensures msgType == MSG_RELAY_FORW && innerHop == 255 ==> h == 0
  {
    if msgType == MSG_RELAY_FORW then ((innerHop as int + 1) % 256) as byte else 0
  }
}

=== FILE: wrappers.dfy ===
/** The optional value used wherever the C code returns or passes a pointer that may be NULL. */
module Wrappers {

  datatype Option<+T> = None | Some(value: T)
}
